=== FILE: README.md ===
# CineHub page logic in Dafny

This project models the decision logic of three pages of the CineHub
streaming catalog (a React front end backed by a Supabase data store):

- **Home grid** (`src/pages/Index.tsx`): a genre selection string that
  starts at `"all"`, is set by a category tile (lower-cased name), by the
  genre dropdown (its raw value) and by "Show All Movies" (back to `"all"`),
  and the `filteredMovies` list derived from it. `"all"` passes the list
  through; any other selection keeps the cards whose lower-cased genre equals
  the selection. Only the card side is lower-cased.
- **Detail page** (`src/pages/MovieDetails.tsx`): the route id is looked up
  in `movies` and, unless that returns a row, in `series`. A returned row is
  spread into a new record with `poster` set from `poster_url` and `type`
  set to `'movie'` or `'series'`. An error other than the "no row" code
  `PGRST116` is only logged; it never stops the fallback. Without an id
  nothing is looked up. While nothing is selected the page shows "Not Found".
- **Admin table** (`src/pages/Admin.tsx`): the active tab key (`"movies"`,
  `"series"`, `"users"`, initially `"movies"`) decides which collection is
  listed (`"users"` lists the series, since the test is `=== "movies"`),
  whether the Seasons column exists, the heading, the "Add" caption
  (`slice(0, -1)` of the key: "movie", "serie", "user"), the highlighted tab
  button and, per row, the status badge.

One file per page, plus the shared `Text`, `Options` and `Media` modules:

| file | module | models |
|---|---|---|
| `text.dfy` | `Text` | `toLowerCase`, `toUpperCase`, `slice(0, -1)` |
| `media.dfy` | `Options`, `Media` | optional values; the `movie`/`series` kind and its tag; display-only ratings |
| `genre_filter.dfy` | `GenreFilter` | `src/pages/Index.tsx` |
| `media_resolver.dfy` | `MediaResolver` | `src/pages/MovieDetails.tsx` |
| `admin_view.dfy` | `AdminView` | `src/pages/Admin.tsx` |

The data store queries are a parameter `fetch: (Table, string) -> Response`
standing for `supabase.from(table).select(...).eq("id", id).single()`; a
`Response` is the `{ data, error }` pair. The resolver returns, besides the
selected media, the tables it queried in order and the `console.error`
lines it wrote, so that "the series table is never queried" and "the error
is only logged" are statements about the result.

Two consequences of the code are worth stating on their own:

- Genre matching lower-cases only the card's genre and compares it with the
  selection as is, so a selection holding an upper-case letter matches
  nothing (`GenreFilter.UpperCaseSelectionMatchesNothing`). The page's own
  controls only produce lower-case selections
  (`GenreFilter.ReachableSelectionsAreLowerCase`).
- An error other than `PGRST116` from the movie lookup is logged and the
  series lookup still runs (`MediaResolver.MovieMissFallsThrough`).

## Model

| member | source | states |
|---|---|---|
| `Text.Lower` | src/pages/Index.tsx:75 | `toLowerCase` keeps the length and maps each character to its lower-case form |
| `Text.LowerHasNoUpper` | src/pages/Index.tsx:97 | a lower-cased string (a stored category selection) holds no upper-case letter |
| `Text.LowerFixedPoints` | src/pages/Index.tsx:75 | lower-casing is idempotent and leaves a string unchanged exactly when it has no upper-case letter |
| `Text.Upper` | src/pages/MovieDetails.tsx:116 | `toUpperCase` keeps the length and maps each character to its upper-case form |
| `Text.DropLast` | src/pages/Admin.tsx:100 | `slice(0, -1)` is the prefix one character shorter, and the empty string for the empty string |
| `Media.TypeTag` | src/pages/MovieDetails.tsx:25 | a media record's `type` is `"movie"` or `"series"` |
| `Media.TypeTagInjective` | src/pages/MovieDetails.tsx:40 | the two kinds carry different tags, so the tag identifies the kind |
| `GenreFilter.KeepGenre` | src/pages/Index.tsx:75 | the filter never adds cards (the output is no longer than the input) and every card it keeps has the selected genre once lower-cased |
| `GenreFilter.KeepGenreMembers` | src/pages/Index.tsx:75 | a card is kept iff it is in the input and its lower-cased genre equals the selection |
| `GenreFilter.KeepGenreIsSubsequence` | src/pages/Index.tsx:75 | the kept cards keep their input order |
| `GenreFilter.KeepGenreCounts` | src/pages/Index.tsx:75 | each matching card is kept as many times as it occurs; no other card is kept |
| `GenreFilter.KeepGenreIdempotent` | src/pages/Index.tsx:75 | filtering the filtered list again by the same genre changes nothing |
| `GenreFilter.FilteredMovies` | src/pages/Index.tsx:73-75 | `"all"` yields the list unchanged; otherwise a card is shown iff it matches the selection |
| `GenreFilter.FilteredMoviesIsSubsequence` | src/pages/Index.tsx:73-75 | whatever the selection, the grid shows an order-preserving subsequence of the list |
| `GenreFilter.FilteredMoviesIdempotent` | src/pages/Index.tsx:73-75 | applying `filteredMovies` twice with one selection equals applying it once |
| `GenreFilter.FilterIsCaseInsensitiveOnCards` | src/pages/Index.tsx:75 | in any list holding both, two cards whose genres differ only in letter case are both shown or both hidden |
| `GenreFilter.UpperCaseSelectionMatchesNothing` | src/pages/Index.tsx:75 | a selection holding an upper-case letter yields the empty list for every input |
| `GenreFilter.ShowsEmptyState` | src/pages/Index.tsx:164 | with the selection `"all"` the empty-state block appears iff the list itself is empty |
| `GenreFilter.EmptyStateIff` | src/pages/Index.tsx:164-168 | the "No movies found" block appears iff no card of the list is shown for the selection |
| `GenreFilter.Apply` | src/pages/Index.tsx:97-169 | a tile click stores the lower-cased name, which has no upper-case letter; the dropdown stores its value; Show All stores `"all"` |
| `GenreFilter.Run` | src/pages/Index.tsx:18-169 | the selection starts at `"all"`; after any events it is what the last event alone would set, since every handler overwrites it |
| `GenreFilter.ShowAllRestoresList` | src/pages/Index.tsx:169 | initially and after Show All, whatever came before, the grid shows the whole list |
| `GenreFilter.CategoryClickLowerCases` | src/pages/Index.tsx:97 | clicking tile `n` selects the same as choosing the dropdown value `lower(n)` |
| `GenreFilter.ReachableSelectionsAreLowerCase` | src/pages/Index.tsx:121-131 | every selection reachable through tiles, the dropdown's own values and Show All is free of upper-case letters |
| `GenreFilter.MockSciFi` | src/pages/Index.tsx:21-62 | on the four built-in cards `"sci-fi"` shows ids 2 then 3 |
| `GenreFilter.MockAction` | src/pages/Index.tsx:21-62 | on the four built-in cards `"action"` shows ids 1 then 4 |
| `GenreFilter.MockEmptySelections` | src/pages/Index.tsx:21-62 | on the built-in cards `"drama"` shows the empty state, and `"Sci-Fi"` matches nothing |
| `MediaResolver.Classify` | src/pages/MovieDetails.tsx:24-31 | a returned row wins; otherwise an error with a code other than `PGRST116` is an error to log; anything else is "no row" |
| `MediaResolver.Normalize` | src/pages/MovieDetails.tsx:25 | the record keeps every column of the row, gains `poster` equal to `poster_url` (undefined if absent) and `type`; these two override same-named columns |
| `MediaResolver.LogFor` | src/pages/MovieDetails.tsx:29-31 | exactly one log line, with the error's message, for an error other than "no row"; none otherwise |
| `MediaResolver.FetchMedia` | src/pages/MovieDetails.tsx:17-47 | `movies` is always queried first, `series` at most second; selected media is tagged `"movie"` or `"series"`; every log line is one of the two error contexts and no context is logged twice |
| `MediaResolver.MovieRowWins` | src/pages/MovieDetails.tsx:18-27 | a movie row is selected, tagged movie, and `series` is never queried |
| `MediaResolver.MovieMissFallsThrough` | src/pages/MovieDetails.tsx:29-37 | without a movie row `series` is queried whatever the movie error was; the movie error is logged iff its code is not `PGRST116` |
| `MediaResolver.ErrorsLogged` | src/pages/MovieDetails.tsx:29-46 | the movie error is logged, with its message, iff the movie lookup failed with a code other than `PGRST116`; the series error is logged, with its message, iff the movie lookup returned no row and the series lookup failed that way |
| `MediaResolver.SeriesFallback` | src/pages/MovieDetails.tsx:33-41 | without a movie row, a series row is selected, tagged series |
| `MediaResolver.NotFoundIff` | src/pages/MovieDetails.tsx:44-47 | nothing is selected, and "Not Found" renders, iff neither lookup returns a row |
| `MediaResolver.TypeIdentifiesTable` | src/pages/MovieDetails.tsx:24-41 | the selected media's `type` is `"movie"` iff the movie lookup returned a row, `"series"` iff it did not |
| `MediaResolver.IdPresent` | src/pages/MovieDetails.tsx:62 | `if (id)` fails for a missing id and for the empty string, and passes for any non-empty id |
| `MediaResolver.LoadPage` | src/pages/MovieDetails.tsx:62-65 | with no id (or an empty one) nothing is queried and nothing is selected; with an id `movies` is queried first |
| `MediaResolver.NoIdNoLookup` | src/pages/MovieDetails.tsx:62-68 | without an id the page queries nothing and renders "Not Found" |
| `MediaResolver.Render` | src/pages/MovieDetails.tsx:68-121 | "Not Found" renders exactly when nothing is selected; otherwise the detail view, or a crash when the type badge or genre badge throws |
| `MediaResolver.TypeBadge` | src/pages/MovieDetails.tsx:116 | the type badge exists iff the record's `type` is a string |
| `MediaResolver.GenreBadge` | src/pages/MovieDetails.tsx:119 | `genre.name` throws iff `genre` is missing or null; for an embedded genre it is that genre's `name` |
| `MediaResolver.TypeBadgeOfSelection` | src/pages/MovieDetails.tsx:114-117 | a selected record's badge reads `"MOVIE"` or `"SERIES"` |
| `AdminView.TabKey` | src/pages/Admin.tsx:63-83 | the active tab key is one of `"movies"`, `"series"`, `"users"` |
| `AdminView.TabKeyInjective` | src/pages/Admin.tsx:63-83 | the three tabs store three different keys |
| `AdminView.ShownItems` | src/pages/Admin.tsx:148 | the movies tab lists the movies; every other tab, `"users"` included, lists the series |
| `AdminView.UsersTabShowsSeries` | src/pages/Admin.tsx:148 | for distinct collections, the movies are listed iff the movies tab is active; the users tab lists the series |
| `AdminView.Heading` | src/pages/Admin.tsx:92 | the heading is "Movies", "TV Series" or "Users" Management by tab |
| `AdminView.HeadingsDistinct` | src/pages/Admin.tsx:92 | two tabs have the same heading iff they are the same tab |
| `AdminView.AddLabel` | src/pages/Admin.tsx:100 | the caption is "Add " followed by the tab key minus its last character, a prefix of the key |
| `AdminView.AddLabels` | src/pages/Admin.tsx:100 | the captions are "Add movie", "Add serie" and "Add user" |
| `AdminView.Description` | src/pages/Admin.tsx:95 | the description embeds the tab key between its fixed prefix and suffix |
| `AdminView.SearchPlaceholder` | src/pages/Admin.tsx:111 | the placeholder embeds the tab key between "Search " and "..." |
| `AdminView.TabButtonVariant` | src/pages/Admin.tsx:63-83 | a tab button is highlighted iff it is the active tab |
| `AdminView.ExactlyOneHighlightedButton` | src/pages/Admin.tsx:12 | exactly one of the three buttons is highlighted; initially the movies button |
| `AdminView.StatusBadgeFor` | src/pages/Admin.tsx:162-167 | default variant iff status is "Published", and the green class iff status is "Published"; otherwise secondary with no class |
| `AdminView.SeasonsCell` | src/pages/Admin.tsx:159 | the Seasons cell shows the item's season count when it has one and "-" otherwise |
| `AdminView.ShowsSeasons` | src/pages/Admin.tsx:142 | the Seasons column is rendered exactly on the series tab; the users tab does not get it |
| `AdminView.HeaderColumns` | src/pages/Admin.tsx:137-145 | the columns start with Title, Year, Genre, Rating and end with Status, Actions; the Seasons header is present iff the series tab is active, as the fifth of seven columns; six columns otherwise |
| `AdminView.RowCells` | src/pages/Admin.tsx:149-177 | a row starts with the title, year, genre and rating cells and ends with the status badge and the actions cell; the Seasons cell sits fifth of seven on the series tab, and off it the row has just those six cells |
| `AdminView.RowsMatchHeader` | src/pages/Admin.tsx:142-160 | every row has one cell per header column, and the Seasons cell sits under the Seasons header |
| `AdminView.TableRows` | src/pages/Admin.tsx:148-178 | one row per listed item, in order, each rendered for the active tab |
| `AdminView.MockSeriesTable` | src/pages/Admin.tsx:21-25 | the series tab shows 5, 8 and 4 in the Seasons column and a Published badge on every row |
| `AdminView.MockMoviesTable` | src/pages/Admin.tsx:15-19 | the movies tab has no Seasons column and only the draft "Interstellar" gets the secondary badge |

## Left out

- `Text.Lower`: lower-casing covers the ASCII letters only; JavaScript also maps other Unicode letters. The strings the pages case-map are ASCII: the category names and mock genres (src/pages/Index.tsx:29-70) and the type tags (src/pages/MovieDetails.tsx:25, 40). The filter lemmas quantify over any list of cards, so they agree with JavaScript only on cards whose genre is ASCII.
- `Text.Upper`: upper-casing covers the ASCII letters only; JavaScript also maps other Unicode letters, some to more than one character.
- `Text.DropLast`: JavaScript's `slice(0, -1)` counts UTF-16 code units while a Dafny string counts Unicode scalar values, so the two differ on a string ending in a character outside the Basic Multilingual Plane; only the ASCII tab keys reach it.
- The Supabase client and the `async`/`useEffect` sequencing are replaced by the `fetch` parameter and by the resolver's result; the interval during which the page shows "Not Found" before the lookup finishes, and the selection not being cleared when the route id changes, are not modelled.
- The media clips query of the detail page only stores the array it receives; it has no logic and is left out.
- Ratings are floating-point values used only for display; they are kept as an opaque number of tenths.
- The grid/list view toggle, CSS classes, layout, footer, static counts of the category tiles and the admin statistics cards are presentation only.
- `src/components/HeroSection.tsx` and `src/components/Sidebar.tsx` are static markup and click wiring; they are not part of this model.
- The admin page's genre `Select`, "Filters" button and search `Input` (src/pages/Admin.tsx:110-113, no `onChange`) and the home page's "View All" button (src/pages/Index.tsx:87, no `onClick`) have no handlers and change nothing that is shown; they are not modelled.
- Merging movies with series into one list, pagination and stale-response discarding do not exist in the code and are not modelled.

=== FILE: admin_view.dfy ===
/** The content table of src/pages/Admin.tsx: everything it shows is derived
    from the active tab key ("movies", "series" or "users"). "users" matches
    only its own button test: it lists the series collection (the test is
    `=== "movies"`), gets no Seasons column (the test is `=== "series"`) and
    has its own heading. */
module AdminView {
  import opened Options
  import opened Media
  import Text

  datatype Tab = MoviesTab | SeriesTab | UsersTab

  /** The string stored as `activeTab`. */
  function TabKey(tab: Tab): (key: string)
    ensures key == "movies" || key == "series" || key == "users"
  {
    match tab
    case MoviesTab => "movies"
    case SeriesTab => "series"
    case UsersTab => "users"
  }

  const InitialTab: Tab := MoviesTab

  /** The tab buttons, in the order they are rendered. */
  const TabButtons: seq<Tab> := [MoviesTab, SeriesTab, UsersTab]

  /** A row of the content table; `seasons` exists on series items only. */
  datatype ContentItem = ContentItem(
    id: int,
    title: string,
    year: int,
    genre: string,
    rating: Rating,
    status: string,
    seasons: Option<int>)

  const MockMovies: seq<ContentItem> := [
    ContentItem(1, "The Dark Knight", 2008, "Action", Rating(90), "Published", None),
    ContentItem(2, "Inception", 2010, "Sci-Fi", Rating(88), "Published", None),
    ContentItem(3, "Interstellar", 2014, "Sci-Fi", Rating(86), "Draft", None)
  ]

  const MockSeries: seq<ContentItem> := [
    ContentItem(1, "Breaking Bad", 2008, "Drama", Rating(95), "Published", Some(5)),
    ContentItem(2, "Game of Thrones", 2011, "Fantasy", Rating(93), "Published", Some(8)),
    ContentItem(3, "Stranger Things", 2016, "Sci-Fi", Rating(87), "Published", Some(4))
  ]

  /** `activeTab === "movies" ? movies : series`. */
  function ShownItems(tab: Tab, movies: seq<ContentItem>, series: seq<ContentItem>): (items: seq<ContentItem>)
    ensures tab == MoviesTab ==> items == movies
    ensures tab != MoviesTab ==> items == series
  {
    if TabKey(tab) == "movies" then movies else series
  }

  /** `activeTab === "series"`: the Seasons header and cells are rendered. */
  predicate ShowsSeasons(tab: Tab)
    ensures ShowsSeasons(tab) <==> tab == SeriesTab
  {
    TabKey(tab) == "series"
  }

  /** The card title. */
  function Heading(tab: Tab): (h: string)
    ensures tab == MoviesTab ==> h == "Movies Management"
    ensures tab == SeriesTab ==> h == "TV Series Management"
    ensures tab == UsersTab ==> h == "Users Management"
  {
    var name := if TabKey(tab) == "movies" then "Movies" else if TabKey(tab) == "series" then "TV Series" else "Users";
    name + " Management"
  }

  /** `Add {activeTab.slice(0, -1)}`. */
  function AddLabel(tab: Tab): (caption: string)
    ensures |caption| == |"Add "| + |TabKey(tab)| - 1
    ensures caption[..4] == "Add " && caption[4..] <= TabKey(tab)
  {
    "Add " + Text.DropLast(TabKey(tab))
  }

  /** `Manage your {activeTab} content and settings`. */
  function Description(tab: Tab): (d: string)
    ensures |d| == 12 + |TabKey(tab)| + 21
    ensures d[..12] == "Manage your " && d[|d| - 21..] == " content and settings"
    ensures d[12..|d| - 21] == TabKey(tab)
  {
    "Manage your " + TabKey(tab) + " content and settings"
  }

  /** The search box placeholder `Search {activeTab}...`. */
  function SearchPlaceholder(tab: Tab): (p: string)
    ensures |p| == 7 + |TabKey(tab)| + 3
    ensures p[..7] == "Search " && p[|p| - 3..] == "..."
    ensures p[7..|p| - 3] == TabKey(tab)
  {
    "Search " + TabKey(tab) + "..."
  }

  datatype ButtonVariant = Hero | Ghost

  /** A tab button is highlighted when its key is the active key. */
  function TabButtonVariant(button: Tab, active: Tab): (v: ButtonVariant)
    ensures v == Hero <==> button == active
  {
    if TabKey(active) == TabKey(button) then Hero else Ghost
  }

  datatype BadgeVariant = DefaultBadge | SecondaryBadge

  /** The status badge's variant and extra class. */
  datatype StatusBadge = StatusBadge(variant: BadgeVariant, className: string, text: string)

  const PublishedStatus: string := "Published"
  const PublishedClass: string := "bg-green-600"

  function StatusBadgeFor(status: string): (b: StatusBadge)
    ensures b.variant == DefaultBadge <==> status == PublishedStatus
    ensures b.className == PublishedClass <==> status == PublishedStatus
    ensures b.className != PublishedClass ==> b.className == ""
    ensures b.text == status
  {
    if status == PublishedStatus then StatusBadge(DefaultBadge, PublishedClass, status)
    else StatusBadge(SecondaryBadge, "", status)
  }

  /** What a table cell shows. */
  datatype Cell =
    | TextCell(text: string)
    | NumberCell(n: int)
    | RatingCell(rating: Rating)
    | StatusCell(badge: StatusBadge)
    | ActionsCell

  /** `"seasons" in item ? item.seasons : "-"`. */
  function SeasonsCell(item: ContentItem): (c: Cell)
    ensures item.seasons.Some? <==> c.NumberCell?
    ensures item.seasons.Some? ==> c.n == item.seasons.value
    ensures item.seasons.None? ==> c == TextCell("-")
  {
    match item.seasons
    case Some(n) => NumberCell(n)
    case None => TextCell("-")
  }

  const SeasonsHeader: string := "Seasons"

  /** The header row of the table. */
  function HeaderColumns(tab: Tab): (cols: seq<string>)
    ensures |cols| == if tab == SeriesTab then 7 else 6
    ensures cols[..4] == ["Title", "Year", "Genre", "Rating"]
    ensures cols[|cols| - 2..] == ["Status", "Actions"]
    ensures SeasonsHeader in cols <==> tab == SeriesTab
    ensures tab == SeriesTab ==> cols[4] == SeasonsHeader
  {
    ["Title", "Year", "Genre", "Rating"]
      + (if ShowsSeasons(tab) then [SeasonsHeader] else [])
      + ["Status", "Actions"]
  }

  /** One body row of the table. */
  function RowCells(tab: Tab, item: ContentItem): (cells: seq<Cell>)
    ensures |cells| == if tab == SeriesTab then 7 else 6
    ensures cells[..4] == [TextCell(item.title), NumberCell(item.year), TextCell(item.genre), RatingCell(item.rating)]
    ensures tab == SeriesTab ==> cells[4] == SeasonsCell(item)
    ensures cells[|cells| - 2] == StatusCell(StatusBadgeFor(item.status))
    ensures cells[|cells| - 1] == ActionsCell
  {
    [TextCell(item.title), NumberCell(item.year), TextCell(item.genre), RatingCell(item.rating)]
      + (if ShowsSeasons(tab) then [SeasonsCell(item)] else [])
      + [StatusCell(StatusBadgeFor(item.status)), ActionsCell]
  }

  /** The body rows for the shown collection. */
  function TableRows(tab: Tab, movies: seq<ContentItem>, series: seq<ContentItem>): (rows: seq<seq<Cell>>)
    ensures |rows| == |ShownItems(tab, movies, series)|
    ensures forall i :: 0 <= i < |rows| ==> rows[i] == RowCells(tab, ShownItems(tab, movies, series)[i])
  {
    var items := ShownItems(tab, movies, series);
    seq(|items|, i requires 0 <= i < |items| => RowCells(tab, items[i]))
  }

  /** Distinct tabs have distinct keys. */
  lemma TabKeyInjective(a: Tab, b: Tab)
    ensures TabKey(a) == TabKey(b) <==> a == b
  {
  }

  /** The movies collection is shown exactly on the movies tab; the users tab
      shows the series collection. */
  lemma UsersTabShowsSeries(movies: seq<ContentItem>, series: seq<ContentItem>)
    requires movies != series
    ensures ShownItems(UsersTab, movies, series) == series
    ensures forall tab :: ShownItems(tab, movies, series) == movies <==> tab == MoviesTab
  {
  }

  /** Every body row has one cell per header column, and on the series tab
      the Seasons cell sits under the Seasons header. */
  lemma RowsMatchHeader(tab: Tab, item: ContentItem)
    ensures |RowCells(tab, item)| == |HeaderColumns(tab)|
    ensures forall i :: 0 <= i < |HeaderColumns(tab)| && HeaderColumns(tab)[i] == SeasonsHeader ==>
      RowCells(tab, item)[i] == SeasonsCell(item)
  {
  }

  /** The headings of the three tabs are pairwise distinct. */
  lemma HeadingsDistinct(a: Tab, b: Tab)
    ensures Heading(a) == Heading(b) <==> a == b
  {
  }

  /** The "Add" labels of the three tabs: the key without its last letter. */
  lemma AddLabels()
    ensures AddLabel(MoviesTab) == "Add movie"
    ensures AddLabel(SeriesTab) == "Add serie"
    ensures AddLabel(UsersTab) == "Add user"
  {
  }

  /** Exactly one tab button is highlighted, whichever tab is active; at
      first it is the movies button. */
  lemma ExactlyOneHighlightedButton(active: Tab)
    ensures |set i | 0 <= i < |TabButtons| && TabButtonVariant(TabButtons[i], active) == Hero| == 1
    ensures TabButtonVariant(MoviesTab, InitialTab) == Hero
  {
    var hero := set i | 0 <= i < |TabButtons| && TabButtonVariant(TabButtons[i], active) == Hero;
    var k := match active case MoviesTab => 0 case SeriesTab => 1 case UsersTab => 2;
    assert hero == {k};
  }

  /** The mock series table: the Seasons column shows 5, 8 and 4, and every
      series is published. */
  lemma MockSeriesTable()
    ensures |TableRows(SeriesTab, MockMovies, MockSeries)| == 3
    ensures TableRows(SeriesTab, MockMovies, MockSeries)[0][4] == NumberCell(5)
    ensures TableRows(SeriesTab, MockMovies, MockSeries)[1][4] == NumberCell(8)
    ensures TableRows(SeriesTab, MockMovies, MockSeries)[2][4] == NumberCell(4)
    ensures forall i :: 0 <= i < 3 ==>
      TableRows(SeriesTab, MockMovies, MockSeries)[i][5] == StatusCell(StatusBadgeFor(PublishedStatus))
  {
  }

  /** The mock movies table has no Seasons column and marks only
      "Interstellar", a draft, with the secondary badge. */
  lemma MockMoviesTable()
    ensures |HeaderColumns(MoviesTab)| == 6
    ensures forall i :: 0 <= i < |MockMovies| ==>
      (StatusBadgeFor(MockMovies[i].status).variant == SecondaryBadge <==> i == 2)
  {
  }
}

=== FILE: genre_filter.dfy ===
/** The home grid of src/pages/Index.tsx: a genre selection that starts at
    "all", is changed by category clicks, the genre dropdown and the
    "Show All Movies" button, and decides which movie cards are shown. */
module GenreFilter {
  import opened Text
  import opened Media

  /** One card of the home grid. */
  datatype MovieCard = MovieCard(
    id: string,
    title: string,
    poster: string,
    rating: Rating,
    year: int,
    duration: string,
    genre: string,
    mediaType: MediaType)

  /** The selection value that disables filtering. */
  const All: string := "all"

  /** The selection the page starts with. */
  const InitialSelection: string := All

  /** A card matches a selection when its lower-cased genre equals the
      selection. Only the card's side is lower-cased. */
  predicate InGenre(m: MovieCard, selected: string) {
    Lower(m.genre) == selected
  }

  /** Whether a card belongs on the grid for a selection. */
  predicate Shown(m: MovieCard, selected: string) {
    selected == All || InGenre(m, selected)
  }

  /** `xs` is obtained from `ys` by deleting elements, keeping the order. */
  ghost predicate IsSubsequence<T>(xs: seq<T>, ys: seq<T>)
    decreases |ys|
  {
    if |xs| == 0 then true
    else if |ys| == 0 then false
    else (xs[0] == ys[0] && IsSubsequence(xs[1..], ys[1..])) || IsSubsequence(xs, ys[1..])
  }

  /** `movies.filter(movie => movie.genre.toLowerCase() === selected)`. */
  function KeepGenre(movies: seq<MovieCard>, selected: string): (r: seq<MovieCard>)
    ensures |r| <= |movies|
    ensures forall i :: 0 <= i < |r| ==> InGenre(r[i], selected)
  {
    if |movies| == 0 then []
    else
      var rest := KeepGenre(movies[1..], selected);
      if InGenre(movies[0], selected) then [movies[0]] + rest else rest
  }

  /** A card is kept exactly when it is in the input and matches. */
  lemma {:induction false} KeepGenreMembers(movies: seq<MovieCard>, selected: string)
    ensures forall m :: m in KeepGenre(movies, selected) <==> m in movies && InGenre(m, selected)
    decreases |movies|
  {
    if |movies| > 0 {
      KeepGenreMembers(movies[1..], selected);
      assert movies == [movies[0]] + movies[1..];
    }
  }

  /** The kept cards appear in the order they have in the input. */
  lemma {:induction false} KeepGenreIsSubsequence(movies: seq<MovieCard>, selected: string)
    ensures IsSubsequence(KeepGenre(movies, selected), movies)
    decreases |movies|
  {
    if |movies| > 0 {
      KeepGenreIsSubsequence(movies[1..], selected);
      var rest := KeepGenre(movies[1..], selected);
      if InGenre(movies[0], selected) {
        assert ([movies[0]] + rest)[1..] == rest;
      }
    }
  }

  /** Every matching card is kept as often as it occurs in the input, and no
      other card is kept. */
  lemma {:induction false} KeepGenreCounts(movies: seq<MovieCard>, selected: string, m: MovieCard)
    ensures multiset(KeepGenre(movies, selected))[m] == if InGenre(m, selected) then multiset(movies)[m] else 0
    decreases |movies|
  {
    if |movies| > 0 {
      KeepGenreCounts(movies[1..], selected, m);
      assert movies == [movies[0]] + movies[1..];
    }
  }

  /** `filteredMovies`: the whole list for "all", the genre's cards otherwise. */
  function FilteredMovies(movies: seq<MovieCard>, selected: string): (r: seq<MovieCard>)
    ensures selected == All ==> r == movies
    ensures forall m :: m in r <==> m in movies && Shown(m, selected)
  {
    if selected == All then movies else KeepGenreMembers(movies, selected); KeepGenre(movies, selected)
  }

  /** Whatever the selection, the grid shows an order-preserving subsequence
      of the list. */
  lemma FilteredMoviesIsSubsequence(movies: seq<MovieCard>, selected: string)
    ensures IsSubsequence(FilteredMovies(movies, selected), movies)
  {
    if selected == All {
      SubsequenceOfSelf(movies);
    } else {
      KeepGenreIsSubsequence(movies, selected);
    }
  }

  /** The "No movies found in this genre" block is rendered. */
  predicate ShowsEmptyState(movies: seq<MovieCard>, selected: string)
    ensures selected == All ==> (ShowsEmptyState(movies, selected) <==> |movies| == 0)
  {
    |FilteredMovies(movies, selected)| == 0
  }

  lemma {:induction false} SubsequenceOfSelf<T>(xs: seq<T>)
    ensures IsSubsequence(xs, xs)
    decreases |xs|
  {
    if |xs| > 0 {
      SubsequenceOfSelf(xs[1..]);
    }
  }

  /** Filtering an already filtered list with the same selection changes
      nothing. */
  lemma {:induction false} KeepGenreIdempotent(movies: seq<MovieCard>, selected: string)
    ensures KeepGenre(KeepGenre(movies, selected), selected) == KeepGenre(movies, selected)
    decreases |movies|
  {
    if |movies| > 0 {
      var rest := KeepGenre(movies[1..], selected);
      KeepGenreIdempotent(movies[1..], selected);
      if InGenre(movies[0], selected) {
        var r := [movies[0]] + rest;
        assert r[1..] == rest;
      }
    }
  }

  lemma FilteredMoviesIdempotent(movies: seq<MovieCard>, selected: string)
    ensures FilteredMovies(FilteredMovies(movies, selected), selected) == FilteredMovies(movies, selected)
  {
    if selected != All {
      KeepGenreIdempotent(movies, selected);
    }
  }

  /** A card passes exactly when its lower-cased genre equals the selection;
      a card whose genre differs only in letter case still passes. */
  lemma FilterIsCaseInsensitiveOnCards(movies: seq<MovieCard>, m: MovieCard, n: MovieCard, selected: string)
    requires m in movies && n in movies
    requires Lower(m.genre) == Lower(n.genre)
    ensures m in FilteredMovies(movies, selected) <==> n in FilteredMovies(movies, selected)
  {
  }

  /** A selection holding an upper-case letter matches no card at all, since
      only the card's genre is lower-cased. */
  lemma UpperCaseSelectionMatchesNothing(movies: seq<MovieCard>, selected: string)
    requires HasUpper(selected)
    ensures FilteredMovies(movies, selected) == []
  {
    var r := FilteredMovies(movies, selected);
    if |r| > 0 {
      assert r[0] in r;
      LowerHasNoUpper(r[0].genre);
    }
  }

  /** The empty-state block appears exactly when no card of the list is
      shown for the selection. */
  lemma EmptyStateIff(movies: seq<MovieCard>, selected: string)
    ensures ShowsEmptyState(movies, selected) <==> forall i :: 0 <= i < |movies| ==> !Shown(movies[i], selected)
  {
    var r := FilteredMovies(movies, selected);
    if |r| > 0 {
      assert r[0] in r;
    }
    if i :| 0 <= i < |movies| && Shown(movies[i], selected) {
      assert movies[i] in r;
    }
  }

  /** What can change the selection. */
  datatype GenreEvent =
    | CategoryClicked(name: string)   // a tile of "Browse by Genre"
    | GenreChosen(value: string)      // the genre dropdown
    | ShowAllClicked                  // "Show All Movies" in the empty state

  function Apply(selected: string, e: GenreEvent): (next: string)
    ensures e.CategoryClicked? ==> next == Lower(e.name) && !HasUpper(next)
    ensures e.GenreChosen? ==> next == e.value
    ensures e.ShowAllClicked? ==> next == All
  {
    match e
    case CategoryClicked(name) => Lower(name)
    case GenreChosen(value) => value
    case ShowAllClicked => All
  }

  /** The selection after a sequence of events, starting from the page's
      initial selection. Each event overwrites the selection, so the last
      event alone decides it. */
  function Run(events: seq<GenreEvent>): (selected: string)
    ensures |events| == 0 ==> selected == InitialSelection
    ensures |events| > 0 ==> selected == Apply(InitialSelection, events[|events| - 1])
  {
    if |events| == 0 then InitialSelection else Apply(Run(events[..|events| - 1]), events[|events| - 1])
  }

  /** The values of the dropdown's items. */
  const DropdownValues: seq<string> := ["all", "action", "sci-fi", "drama", "comedy"]

  /** An event the page itself can produce. This over-approximates the page:
      "Show All Movies" is only rendered inside the empty-state block, but
      `ShowAllClicked` is accepted at any point. */
  predicate FromPage(e: GenreEvent) {
    e.GenreChosen? ==> e.value in DropdownValues
  }

  /** Before any event the whole list is shown; after "Show All Movies" it is
      shown again, whatever was selected before. */
  lemma ShowAllRestoresList(movies: seq<MovieCard>, events: seq<GenreEvent>)
    ensures FilteredMovies(movies, Run([])) == movies
    ensures Run(events + [ShowAllClicked]) == All
    ensures FilteredMovies(movies, Run(events + [ShowAllClicked])) == movies
  {
  }

  /** A category click stores the lower-cased name, so the tile "Sci-Fi" and
      the dropdown item "sci-fi" lead to the same selection. */
  lemma CategoryClickLowerCases(selected: string, name: string)
    ensures Apply(selected, CategoryClicked(name)) == Lower(name)
    ensures Apply(selected, CategoryClicked(name)) == Apply(selected, GenreChosen(Lower(name)))
  {
  }

  /** Every selection the page can reach is free of upper-case letters, so
      the upper-case quirk never shows through the page's own controls. */
  lemma ReachableSelectionsAreLowerCase(events: seq<GenreEvent>)
    requires forall i :: 0 <= i < |events| ==> FromPage(events[i])
    ensures !HasUpper(Run(events))
  {
    if |events| == 0 {
      AllHasNoUpper();
    } else {
      var last := events[|events| - 1];
      assert FromPage(last);
      match last
      case GenreChosen(v) => DropdownValuesHaveNoUpper(); assert v in DropdownValues;
      case ShowAllClicked => AllHasNoUpper();
      case CategoryClicked(_) =>
    }
  }

  lemma AllHasNoUpper()
    ensures !HasUpper(All)
  {
  }

  lemma DropdownValuesHaveNoUpper()
    ensures forall v :: v in DropdownValues ==> !HasUpper(v)
  {
  }

  /** The ids of a list of cards, in order. */
  function Ids(movies: seq<MovieCard>): (ids: seq<string>)
    ensures |ids| == |movies|
    ensures forall i :: 0 <= i < |movies| ==> ids[i] == movies[i].id
  {
    if |movies| == 0 then [] else [movies[0].id] + Ids(movies[1..])
  }

  /** The page's four built-in cards. */
  const MockMovies: seq<MovieCard> := [
    MovieCard("1", "The Dark Knight", "dark-knight-poster.jpg", Rating(90), 2008, "2h 32m", "Action", Movie),
    MovieCard("2", "Inception", "inception-poster.jpg", Rating(88), 2010, "2h 28m", "Sci-Fi", Movie),
    MovieCard("3", "Interstellar", "interstellar-poster.jpg", Rating(86), 2014, "2h 49m", "Sci-Fi", Movie),
    MovieCard("4", "Avengers: Endgame", "avengers-poster.jpg", Rating(84), 2019, "3h 1m", "Action", Movie)
  ]

  lemma MockGenresLowerCased()
    ensures Lower("Action") == "action"
    ensures Lower("Sci-Fi") == "sci-fi"
  {
  }

  /** One step of the filter: the first card, if it matches, then the
      filtered rest. */
  lemma KeepGenreStep(movies: seq<MovieCard>, selected: string)
    requires |movies| > 0
    ensures KeepGenre(movies, selected) ==
      (if InGenre(movies[0], selected) then [movies[0]] else []) + KeepGenre(movies[1..], selected)
  {
  }

  /** Filtering a four-card list, card by card. */
  lemma KeepGenreOfFour(selected: string, k0: bool, k1: bool, k2: bool, k3: bool, m: seq<MovieCard>)
    requires |m| == 4
    requires InGenre(m[0], selected) == k0 && InGenre(m[1], selected) == k1
    requires InGenre(m[2], selected) == k2 && InGenre(m[3], selected) == k3
    ensures KeepGenre(m, selected) ==
      (if k0 then [m[0]] else []) + ((if k1 then [m[1]] else []) +
      ((if k2 then [m[2]] else []) + (if k3 then [m[3]] else [])))
  {
    assert m[1..][0] == m[1] && m[2..][0] == m[2] && m[3..][0] == m[3];
    assert m[1..][1..] == m[2..] && m[2..][1..] == m[3..] && m[3..][1..] == [];
    KeepGenreStep(m[3..], selected);
    KeepGenreStep(m[2..], selected);
    KeepGenreStep(m[1..], selected);
    KeepGenreStep(m, selected);
  }

  /** The built-in cards under the dropdown's "sci-fi": Inception, then
      Interstellar. */
  lemma MockSciFi()
    ensures Ids(FilteredMovies(MockMovies, "sci-fi")) == ["2", "3"]
  {
    MockGenresLowerCased();
    var m := MockMovies;
    assert Lower(m[0].genre) == "action" && Lower(m[1].genre) == "sci-fi";
    assert Lower(m[2].genre) == "sci-fi" && Lower(m[3].genre) == "action";
    KeepGenreOfFour("sci-fi", false, true, true, false, m);
    assert Ids([m[1], m[2]]) == [m[1].id, m[2].id];
  }

  /** The built-in cards under "action": The Dark Knight, then Avengers. */
  lemma MockAction()
    ensures Ids(FilteredMovies(MockMovies, "action")) == ["1", "4"]
  {
    MockGenresLowerCased();
    var m := MockMovies;
    assert Lower(m[0].genre) == "action" && Lower(m[1].genre) == "sci-fi";
    assert Lower(m[2].genre) == "sci-fi" && Lower(m[3].genre) == "action";
    KeepGenreOfFour("action", true, false, false, true, m);
    assert Ids([m[0], m[3]]) == [m[0].id, m[3].id];
  }

  /** No built-in card is a drama, so "drama" shows the empty state; the
      tile's own spelling "Sci-Fi" would match nothing. */
  lemma MockEmptySelections()
    ensures ShowsEmptyState(MockMovies, "drama")
    ensures FilteredMovies(MockMovies, "Sci-Fi") == []
  {
    MockGenresLowerCased();
    var m := MockMovies;
    assert Lower(m[0].genre) == "action" && Lower(m[1].genre) == "sci-fi";
    assert Lower(m[2].genre) == "sci-fi" && Lower(m[3].genre) == "action";
    KeepGenreOfFour("drama", false, false, false, false, m);
    assert IsUpperAscii("Sci-Fi"[0]);
    UpperCaseSelectionMatchesNothing(m, "Sci-Fi");
  }
}

=== FILE: media.dfy ===
/** Values shared by every page of the catalog. */
module Options {

  /** A value that may be missing: `null`/`undefined` on the TypeScript side. */
  datatype Option<+T> = None | Some(value: T)
}

module Media {

  /** The two kinds of media the catalog shows. */
  datatype MediaType = Movie | Series

  /** The string a media record carries in its `type` field. */
  function TypeTag(t: MediaType): (tag: string)
    ensures tag == "movie" || tag == "series"
  {
    match t
    case Movie => "movie"
    case Series => "series"
  }

  /** A star rating as displayed (9.0 is `Rating(90)`); only ever shown, never
      compared or computed with. */
  datatype Rating = Rating(tenths: int)

  /** Distinct kinds carry distinct tags, so the tag identifies the kind. */
  lemma TypeTagInjective(a: MediaType, b: MediaType)
    ensures TypeTag(a) == TypeTag(b) <==> a == b
  {
  }
}

=== FILE: media_resolver.dfy ===
/** The detail page of src/pages/MovieDetails.tsx: an identifier from the
    route is looked up in the `movies` table first and in the `series` table
    only when that yields no row; the row found is normalised and tagged with
    its kind, and the page shows "Not Found" while nothing is selected. */
module MediaResolver {
  import opened Options
  import opened Media
  import Text

  /** A JSON value of a row as the data store client returns it. The page
      only copies values and reads properties of objects, so numbers are kept
      as reals and booleans and arrays as opaque leaves. */
  datatype Value =
    | Undefined
    | Null
    | Bool(b: bool)
    | Str(s: string)
    | Num(n: real)
    | Arr(items: seq<Value>)
    | Obj(fields: map<string, Value>)

  /** A row: its column names (and the embedded `genre` relation) with their
      values. */
  type Row = map<string, Value>

  datatype Table = MoviesTable | SeriesTable

  /** The error object of a query. */
  datatype QueryError = QueryError(code: string, message: string)

  /** The `{ data, error }` pair a `.single()` query resolves to. */
  datatype Response = Response(data: Option<Row>, error: Option<QueryError>)

  /** The code the data store uses when `.single()` matched no row. */
  const NoRowCode: string := "PGRST116"

  /** What one lookup amounts to for the resolver. */
  datatype LookupOutcome = Found(row: Row) | NoRow | OtherError(message: string)

  /** A row, when present, wins; otherwise an error other than "no row" is
      reported; anything else (no error, or the "no row" code) is no row. */
  function Classify(resp: Response): (o: LookupOutcome)
    ensures o.Found? <==> resp.data.Some?
    ensures o.Found? ==> o.row == resp.data.value
    ensures o.OtherError? <==> resp.data.None? && resp.error.Some? && resp.error.value.code != NoRowCode
    ensures o.OtherError? ==> o.message == resp.error.value.message
  {
    if resp.data.Some? then Found(resp.data.value)
    else if resp.error.Some? && resp.error.value.code != NoRowCode then OtherError(resp.error.value.message)
    else NoRow
  }

  const PosterKey: string := "poster"
  const PosterUrlKey: string := "poster_url"
  const TypeKey: string := "type"

  /** Reading a missing property yields `undefined`. */
  function Field(row: Row, key: string): (v: Value)
    ensures key !in row ==> v == Undefined
    ensures key in row ==> v == row[key]
  {
    if key in row then row[key] else Undefined
  }

  /** `{ ...row, poster: row.poster_url, type }`: every column of the row,
      then `poster` and `type`, which override columns of the same name. */
  function Normalize(row: Row, t: MediaType): (media: Row)
    ensures media.Keys == row.Keys + {PosterKey, TypeKey}
    ensures forall k :: k in row && k != PosterKey && k != TypeKey ==> media[k] == row[k]
    ensures media[PosterKey] == Field(row, PosterUrlKey)
    ensures media[TypeKey] == Str(TypeTag(t))
  {
    row[PosterKey := Field(row, PosterUrlKey)][TypeKey := Str(TypeTag(t))]
  }

  /** A `console.error` line. */
  datatype LogEntry = LogEntry(context: string, message: string)

  /** The prefixes of the two `console.error` calls. */
  const MovieErrorContext: string := "Error fetching movie:"
  const SeriesErrorContext: string := "Error fetching series:"

  /** The result of `fetchMedia`: the media selected (if any), the tables
      queried in order, and the errors logged. */
  datatype Resolution = Resolution(media: Option<Row>, queried: seq<Table>, logged: seq<LogEntry>)

  /** The log lines for an outcome: only an error other than "no row". */
  function LogFor(context: string, o: LookupOutcome): (entries: seq<LogEntry>)
    ensures |entries| <= 1
    ensures |entries| == 1 <==> o.OtherError?
    ensures o.OtherError? ==> entries[0] == LogEntry(context, o.message)
  {
    if o.OtherError? then [LogEntry(context, o.message)] else []
  }

  /** `fetchMedia`: the movie lookup, then, unless it produced a row, the
      series lookup. `fetch` stands for the query of one table by id. */
  function FetchMedia(id: string, fetch: (Table, string) -> Response): (res: Resolution)
    ensures 1 <= |res.queried| <= 2 && res.queried[0] == MoviesTable
    ensures |res.queried| == 2 ==> res.queried[1] == SeriesTable
    ensures res.media.Some? ==>
              TypeKey in res.media.value &&
              (res.media.value[TypeKey] == Str("movie") || res.media.value[TypeKey] == Str("series"))
    ensures |res.logged| <= |res.queried|
    ensures forall e :: e in res.logged ==> e.context == MovieErrorContext || e.context == SeriesErrorContext
    ensures forall i, j :: 0 <= i < j < |res.logged| ==> res.logged[i].context != res.logged[j].context
  {
    var movie := Classify(fetch(MoviesTable, id));
    if movie.Found? then
      Resolution(Some(Normalize(movie.row, Movie)), [MoviesTable], [])
    else
      var series := Classify(fetch(SeriesTable, id));
      var logged := LogFor(MovieErrorContext, movie) + LogFor(SeriesErrorContext, series);
      if series.Found? then
        Resolution(Some(Normalize(series.row, Series)), [MoviesTable, SeriesTable], logged)
      else
        Resolution(None, [MoviesTable, SeriesTable], logged)
  }

  /** `if (id)`: a missing route parameter and the empty string are both
      falsy. */
  predicate IdPresent(id: Option<string>)
    ensures id.None? ==> !IdPresent(id)
    ensures id == Some("") ==> !IdPresent(id)
    ensures id.Some? && |id.value| > 0 ==> IdPresent(id)
  {
    id.Some? && id.value != ""
  }

  /** The page's selected media after its effect has run: nothing is looked
      up without an id, and the selection stays `null`. */
  function LoadPage(id: Option<string>, fetch: (Table, string) -> Response): (res: Resolution)
    ensures !IdPresent(id) ==> res == Resolution(None, [], [])
    ensures IdPresent(id) ==> res.queried != [] && res.queried[0] == MoviesTable
  {
    if IdPresent(id) then FetchMedia(id.value, fetch) else Resolution(None, [], [])
  }

  /** What the page renders. `Crashed` is a rendering that throws: reading
      `.name` of a `null` or missing `genre`, or calling `toUpperCase` on a
      `type` that is not a string. */
  datatype View =
    | NotFoundView
    | DetailView(title: Value, poster: Value, typeBadge: string, genreBadge: Value, downloadLink: Value)
    | Crashed

  /** `type.toUpperCase()`. */
  function TypeBadge(media: Row): (badge: Option<string>)
    ensures badge.Some? <==> TypeKey in media && media[TypeKey].Str?
  {
    if TypeKey in media && media[TypeKey].Str? then Some(Text.Upper(media[TypeKey].s)) else None
  }

  /** `genre.name`: `undefined` and `null` have no properties; other
      primitives yield `undefined`. */
  function GenreBadge(media: Row): (badge: Option<Value>)
    ensures badge.None? <==> Field(media, "genre").Undefined? || Field(media, "genre").Null?
    ensures Field(media, "genre").Obj? ==> badge == Some(Field(Field(media, "genre").fields, "name"))
  {
    match Field(media, "genre")
    case Undefined => None
    case Null => None
    case Obj(fields) => Some(Field(fields, "name"))
    case _ => Some(Undefined)
  }

  function Render(selected: Option<Row>): (v: View)
    ensures v.NotFoundView? <==> selected.None?
  {
    match selected
    case None => NotFoundView
    case Some(media) =>
      match (TypeBadge(media), GenreBadge(media))
      case (Some(typeBadge), Some(genreBadge)) =>
        DetailView(Field(media, "title"), Field(media, "poster"), typeBadge, genreBadge, Field(media, "download_link"))
      case _ => Crashed
  }

  /** A movie row is selected as soon as the movie lookup returns it, and the
      series table is never queried. */
  lemma MovieRowWins(id: string, fetch: (Table, string) -> Response)
    requires fetch(MoviesTable, id).data.Some?
    ensures FetchMedia(id, fetch).media == Some(Normalize(fetch(MoviesTable, id).data.value, Movie))
    ensures FetchMedia(id, fetch).queried == [MoviesTable]
    ensures FetchMedia(id, fetch).logged == []
  {
  }

  /** Without a movie row the series table is always queried, whatever the
      movie error was: an error other than "no row" is logged, never fatal. */
  lemma MovieMissFallsThrough(id: string, fetch: (Table, string) -> Response)
    requires fetch(MoviesTable, id).data.None?
    ensures FetchMedia(id, fetch).queried == [MoviesTable, SeriesTable]
    ensures Classify(fetch(MoviesTable, id)).OtherError? <==>
      |FetchMedia(id, fetch).logged| > 0 && FetchMedia(id, fetch).logged[0].context == MovieErrorContext
  {
  }

  /** Which errors are logged, for every pair of responses: the movie error
      exactly when the movie lookup failed with a code other than `PGRST116`,
      the series error exactly when the series lookup ran and failed that way;
      each line carries its error's message. */
  lemma ErrorsLogged(id: string, fetch: (Table, string) -> Response)
    ensures Classify(fetch(MoviesTable, id)).OtherError? ==>
              FetchMedia(id, fetch).logged[0] == LogEntry(MovieErrorContext, fetch(MoviesTable, id).error.value.message)
    ensures (exists i :: 0 <= i < |FetchMedia(id, fetch).logged| &&
               FetchMedia(id, fetch).logged[i].context == MovieErrorContext)
            <==> Classify(fetch(MoviesTable, id)).OtherError?
    ensures (exists i :: 0 <= i < |FetchMedia(id, fetch).logged| &&
               FetchMedia(id, fetch).logged[i].context == SeriesErrorContext)
            <==> fetch(MoviesTable, id).data.None? && Classify(fetch(SeriesTable, id)).OtherError?
    ensures forall i :: 0 <= i < |FetchMedia(id, fetch).logged| ==>
              (FetchMedia(id, fetch).logged[i].context == SeriesErrorContext ==>
                 fetch(SeriesTable, id).error.Some? &&
                 FetchMedia(id, fetch).logged[i].message == fetch(SeriesTable, id).error.value.message)
  {
    var movie := Classify(fetch(MoviesTable, id));
    var series := Classify(fetch(SeriesTable, id));
    var logged := FetchMedia(id, fetch).logged;
    if movie.NoRow? && series.OtherError? {
      assert logged[0].context == SeriesErrorContext;
    } else if movie.OtherError? && series.OtherError? {
      assert logged[1].context == SeriesErrorContext;
    }
  }

  /** Without a movie row, a series row is selected, tagged as series. */
  lemma SeriesFallback(id: string, fetch: (Table, string) -> Response)
    requires fetch(MoviesTable, id).data.None?
    requires fetch(SeriesTable, id).data.Some?
    ensures FetchMedia(id, fetch).media == Some(Normalize(fetch(SeriesTable, id).data.value, Series))
  {
  }

  /** Nothing is selected exactly when neither lookup returns a row, and then
      the page renders "Not Found". */
  lemma NotFoundIff(id: string, fetch: (Table, string) -> Response)
    ensures FetchMedia(id, fetch).media.None? <==>
      fetch(MoviesTable, id).data.None? && fetch(SeriesTable, id).data.None?
    ensures Render(FetchMedia(id, fetch).media) == NotFoundView <==>
      fetch(MoviesTable, id).data.None? && fetch(SeriesTable, id).data.None?
  {
  }

  /** The `type` of the selected media tells which table it came from. */
  lemma TypeIdentifiesTable(id: string, fetch: (Table, string) -> Response)
    requires FetchMedia(id, fetch).media.Some?
    ensures FetchMedia(id, fetch).media.value[TypeKey] == Str("movie") <==> fetch(MoviesTable, id).data.Some?
    ensures FetchMedia(id, fetch).media.value[TypeKey] == Str("series") <==> fetch(MoviesTable, id).data.None?
  {
  }

  /** Without an id nothing is queried and the page renders "Not Found". */
  lemma NoIdNoLookup(id: Option<string>, fetch: (Table, string) -> Response)
    requires !IdPresent(id)
    ensures LoadPage(id, fetch).queried == []
    ensures Render(LoadPage(id, fetch).media) == NotFoundView
  {
  }

  /** A selected media item always carries the badge "MOVIE" or "SERIES". */
  lemma TypeBadgeOfSelection(id: string, fetch: (Table, string) -> Response)
    requires FetchMedia(id, fetch).media.Some?
    ensures TypeBadge(FetchMedia(id, fetch).media.value) == Some("MOVIE") ||
            TypeBadge(FetchMedia(id, fetch).media.value) == Some("SERIES")
  {
    UpperTypeTags();
  }

  /** The badge texts of the two type tags. */
  lemma UpperTypeTags()
    ensures Text.Upper("movie") == "MOVIE"
    ensures Text.Upper("series") == "SERIES"
  {
  }
}

=== FILE: text.dfy ===
/** The string helpers the pages rely on: `toLowerCase`, `toUpperCase` and
    `slice(0, -1)`. Case mapping covers the ASCII letters, which are the only
    letters that occur in the catalog's genre names, tab keys and type tags. */
module Text {

  predicate IsUpperAscii(c: char) {
    'A' <= c <= 'Z'
  }

  predicate IsLowerAscii(c: char) {
    'a' <= c <= 'z'
  }

  /** True if some character of `s` is an upper-case letter. */
  predicate HasUpper(s: string) {
    exists i :: 0 <= i < |s| && IsUpperAscii(s[i])
  }

  function LowerChar(c: char): (d: char)
    ensures !IsUpperAscii(d)
    ensures IsUpperAscii(c) || d == c
  {
    if IsUpperAscii(c) then (c as int + 32) as char else c
  }

  function UpperChar(c: char): (d: char)
    ensures !IsLowerAscii(d)
    ensures IsLowerAscii(c) || d == c
  {
    if IsLowerAscii(c) then (c as int - 32) as char else c
  }

  /** `s.toLowerCase()`: maps every character on its own, keeps the length. */
  function Lower(s: string): (r: string)
    ensures |r| == |s|
    ensures forall i :: 0 <= i < |s| ==> r[i] == LowerChar(s[i])
  {
    seq(|s|, i requires 0 <= i < |s| => LowerChar(s[i]))
  }

  /** `s.toUpperCase()`. */
  function Upper(s: string): (r: string)
    ensures |r| == |s|
    ensures forall i :: 0 <= i < |s| ==> r[i] == UpperChar(s[i])
  {
    seq(|s|, i requires 0 <= i < |s| => UpperChar(s[i]))
  }

  /** `s.slice(0, -1)`: the end index is `|s| - 1`, clamped at 0. */
  function DropLast(s: string): (r: string)
    ensures |s| == 0 ==> r == ""
    ensures |s| > 0 ==> |r| == |s| - 1
    ensures r <= s
  {
    if |s| == 0 then "" else s[..|s| - 1]
  }

  /** A lower-cased string contains no upper-case letter. */
  lemma LowerHasNoUpper(s: string)
    ensures !HasUpper(Lower(s))
  {
  }

  /** Lower-casing is idempotent, and is the identity exactly on strings
      without upper-case letters. */
  lemma LowerFixedPoints(s: string)
    ensures Lower(Lower(s)) == Lower(s)
    ensures Lower(s) == s <==> !HasUpper(s)
  {
  }
}
